=== FILE: README.md ===
# react-native-screens web shim: decision rules in Dafny

The web build of react-native-screens renders screens, stacks and headers
with plain views. Most of its exports are aliases. The few decisions it does
make are modelled here as pure functions over small datatypes:

- the two module-level switches `enableScreens`/`screensEnabled` (initially
  on) and `enableFreeze`/`freezeEnabled` (initially off);
- the host-version check inside `enableFreeze`. It reads the minor version
  with `parseInt(version.split('.')[1])` and warns when freezing is
  requested on a minor that is neither 0 nor at least 64. Both JavaScript
  built-ins are modelled exactly: `split` with a one-character separator
  (module `StringSplit`) and `parseInt` without a radix as section 19.2.5 of
  ECMA-262 defines it (module `JsParseInt`);
- `DelayedFreeze`, a wrapper that freezes its children one render after
  being asked to. It is a machine over the `freeze` prop, the `freezeState`
  flag and the queue of `setImmediate` callbacks not yet run. Running a
  callback is an explicit `Tick` step;
- `MaybeFreeze`, which adds a `DelayedFreeze` only while freezing is enabled;
- `ScreenStack.render`, whose freeze mask freezes every screen but the top one;
- `NativeScreen.render`, which derives the activity state (mapping the legacy
  `active` prop), the `hidden` flag, the `display` style and the freeze
  request, or falls back to a plain view of the remaining props.

Props are a map from names to JavaScript values (`JsValues.JsValue`). An
absent prop and a prop bound to `undefined` read the same. `enabled` is
judged by its truthiness. `active !== 0` and `activityState === 0` are strict
comparisons with the number 0.

Modules: `JsValues`, `StringSplit`, `JsParseInt`, `FeatureFlags`,
`DelayedFreeze`, `ScreenStack`, `NativeScreen`, one file each.

`DelayedFreeze` queues one `setImmediate` callback for every render whose
`freeze` prop differs from its `freezeState` flag (src/index.tsx:63-69).
Each callback sets the flag to the prop value it captured. A callback queued
under a request that was later withdrawn therefore still runs. It can set
the flag early, so that the next freeze request takes effect on its first
render (`DelayedFreeze.StaleTickFreezesAtOnce`). It can also clear the flag
while the request stands, so that a frozen screen is shown again
(`DelayedFreeze.StaleTickFlickers`). The guarantee that holds for every
sequence of renders and callbacks is
`DelayedFreeze.FrozenOnlyAfterRequestAndTick`.

## Model

| member | source | states |
|---|---|---|
| `StringSplit.Split` | src/index.tsx:36 | `version.split('.')` gives one more piece than there are dots, and no piece contains a dot |
| `StringSplit.JoinSplit` | src/index.tsx:36 | joining the pieces of a split with the separator gives back the original string |
| `StringSplit.SplitJoin` | src/index.tsx:36 | splitting the join of dot-free pieces gives back those pieces |
| `StringSplit.Field` | src/index.tsx:36 | `parts[i]` exists exactly when the string has at least `i` dots, and is dot-free |
| `JsParseInt.TrimStart` | src/index.tsx:36 | `parseInt` skips exactly the leading white space, and the rest starts with no white space |
| `JsParseInt.ReadDigits` | src/index.tsx:36 | the digit run is `NaN` exactly when the first character is not a digit of the base; otherwise it is the value of the longest run of digits at the front, most significant first |
| `JsParseInt.ParseInt` | src/index.tsx:36 | `parseInt` of a string of nothing but white space is `NaN`, and a non-zero result is negative exactly when a minus sign follows the leading white space |
| `JsParseInt.Decimal` | src/index.tsx:36 | a decimal rendering is all digits, a single digit exactly below 10, and starts with `0` only for 0 |
| `JsParseInt.ValueOfDecimal` | src/index.tsx:36 | the digits of a decimal rendering denote the number |
| `JsParseInt.ParseDecimal` | src/index.tsx:36 | `parseInt` reads back a decimal numeral and stops at the first character that cannot continue it (`"64-rc"` gives 64) |
| `JsParseInt.ValueLeadingZeros` | src/index.tsx:36 | leading zero digits never change the value of a numeral |
| `JsParseInt.ParsePaddedDecimal` | src/index.tsx:36 | `parseInt` reads a zero-padded decimal numeral as the number it pads (`"063"` gives 63); only a lone `0` followed by `x` switches to base 16 |
| `JsParseInt.ParseNegativeDecimal` | src/index.tsx:36 | a leading minus sign negates the parsed number |
| `JsParseInt.ParsePositiveDecimal` | src/index.tsx:36 | a leading plus sign is skipped (`"+64"` gives 64) |
| `JsParseInt.HexPrefixSwitchesBase` | src/index.tsx:36 | a `0x` or `0X` prefix makes `parseInt` read base 16 (`"0x40"` gives 64) |
| `JsParseInt.LeadingWhitespaceIgnored` | src/index.tsx:36 | leading white space never changes what `parseInt` returns |
| `JsParseInt.NoLeadingDigitIsNaN` | src/index.tsx:36 | a string starting with no digit, sign or white space parses to `NaN` |
| `JsParseInt.UndefinedIsNaN` | src/index.tsx:36 | a missing minor piece (`undefined`, read as the text "undefined") parses to `NaN` |
| `FeatureFlags.ScreensEnabled` | src/index.tsx:21-29 | `screensEnabled()` is true before any `enableScreens` call |
| `FeatureFlags.FreezeEnabled` | src/index.tsx:31-50 | `freezeEnabled()` is false before any `enableFreeze` call |
| `FeatureFlags.EnableScreens` | src/index.tsx:21-29 | after `enableScreens(b)` `screensEnabled()` is `b`, true when called without an argument; the freeze flag is untouched |
| `FeatureFlags.MinorVersion` | src/index.tsx:36 | the minor of a version without a dot is `NaN`; a numeric minor implies a dot in the version |
| `FeatureFlags.SupportsFreeze` | src/index.tsx:38-39 | minor 0 and minors of at least 64 pass the check; `NaN`, negative minors and minors 1 to 63 fail it |
| `FeatureFlags.EnableFreeze` | src/index.tsx:31-50 | after `enableFreeze(b)` `freezeEnabled()` is `b` (true by default) on every version; the screens flag is untouched; it warns only when enabling, never on minor 0 or at least 64, and always when enabling on a `NaN` minor or a minor in 1..63 |
| `FeatureFlags.MinorOfRelease` | src/index.tsx:36 | for `major.minor` or `major.minor.patch…` with a dot-free major, the minor is read exactly, also when zero-padded (`"0.063.0"` has minor 63) |
| `FeatureFlags.GateOnRelease` | src/index.tsx:36-43 | on such a version `enableFreeze(b)` warns iff `b` holds and the minor is neither 0 nor at least 64 |
| `FeatureFlags.GateWithoutMinor` | src/index.tsx:36-43 | on a version without a dot the minor is `NaN`, so `enableFreeze(b)` warns iff `b` |
| `FeatureFlags.Perform` | src/index.tsx:21-50 | each setter writes its own flag and leaves the other one alone |
| `FeatureFlags.LatestScreensCallWins` | src/index.tsx:21-29 | after any sequence of setter calls `screensEnabled()` is the argument of the latest `enableScreens` call, or true if there was none |
| `FeatureFlags.LatestFreezeCallWins` | src/index.tsx:31-50 | after any sequence of setter calls `freezeEnabled()` is the argument of the latest `enableFreeze` call, or false if there was none, whatever the versions |
| `DelayedFreeze.Render` | src/index.tsx:59-71 | a render freezes exactly when both the prop and the flag ask for it; it queues a callback iff prop and flag differ, carrying the prop; the flag does not change during a render |
| `DelayedFreeze.Tick` | src/index.tsx:66-68 | running the oldest queued callback sets the flag to the value it captured; with nothing queued nothing happens |
| `DelayedFreeze.SettlesAfterOneTick` | src/index.tsx:61-71 | from a settled state, one render and one tick bring the flag to the prop; the next render freezes iff the prop does and queues nothing |
| `DelayedFreeze.FreezeTakesOneTick` | src/index.tsx:57-71 | a freshly mounted wrapper asked to freeze is not frozen on that render and is frozen on the render after the tick |
| `DelayedFreeze.UnfreezeIsImmediate` | src/index.tsx:71 | a render with `freeze` false is never frozen, whatever the state |
| `DelayedFreeze.Replay` | src/index.tsx:59-71 | replaying renders and ticks yields one output per event, a render output exactly for render events |
| `DelayedFreeze.FlagNeedsRequestAndTick` | src/index.tsx:61-68 | the flag can be true only after some render asked for a freeze and a tick ran later; a queued `true` exists only after such a request |
| `DelayedFreeze.FrozenOnlyAfterRequestAndTick` | src/index.tsx:57-71 | in any sequence of renders and ticks, a frozen render asked for the freeze itself, and an earlier render asked for one with a tick after it |
| `DelayedFreeze.StaleTickFreezesAtOnce` | src/index.tsx:63-71 | an event sequence in which a callback queued under a withdrawn request lets the next request freeze on its first render |
| `DelayedFreeze.StaleTickFlickers` | src/index.tsx:63-71 | an event sequence in which, with `freeze` true throughout, a render freezes the children and the render after a stale callback shows them again |
| `ScreenStack.RenderStack` | src/index.tsx:82-97 | with freezing enabled every child is wrapped in order and child `i` of `n` is frozen iff `i < n - 1`; otherwise the children pass through unwrapped |
| `ScreenStack.OnlyTopIsLive` | src/index.tsx:86-93 | a non-empty stack has exactly one live child, the last; an empty one has none |
| `ScreenStack.PushFreezesPreviousTop` | src/index.tsx:86-93 | pushing a screen freezes the old top, leaves the new top live and the rest unchanged |
| `ScreenStack.PopUnfreezesNewTop` | src/index.tsx:86-93 | popping the top unfreezes the screen below it |
| `ScreenStack.StackFreezesOneTickLater` | src/index.tsx:84-94 | freshly mounted wrappers freeze no child on the first render; after their ticks exactly the children under the top are frozen |
| `NativeScreen.MaybeFreeze` | src/index.tsx:74-80 | a `DelayedFreeze` carrying the request while freezing is enabled, a bare fragment otherwise |
| `NativeScreen.MaybeFreezeSettles` | src/index.tsx:74-80 | a freshly mounted screen's children are frozen one render and one tick after the request exactly when freezing is enabled and requested; the first render never freezes |
| `NativeScreen.IsEnabled` | src/index.tsx:102-110 | with `enabled` absent or `undefined` the screens flag decides; otherwise the prop's truthiness does (`false`, `null`, `NaN`, `0` and `""` disable; `true`, non-zero numbers, non-empty strings and objects enable) |
| `NativeScreen.ActivityState` | src/index.tsx:111-113 | a given activity state is kept; the derived state is undefined exactly when neither `activityState` nor `active` is given |
| `NativeScreen.RenderScreen` | src/index.tsx:100-127 | managed iff enabled (default: the screens flag); a plain view has exactly the unconsumed props; a managed view has those plus `hidden` and `style`, the style list keeping the caller's `style`; other props are forwarded unchanged |
| `NativeScreen.InactiveIffHidden` | src/index.tsx:115-122 | for an enabled screen, `display` `'none'`, computed `hidden` and the freeze request all hold exactly when the activity state is 0; otherwise `display` is `'flex'` |
| `NativeScreen.HiddenPropOverrides` | src/index.tsx:116-121 | a caller's `hidden` prop, spread after the computed one, wins |
| `NativeScreen.GivenActivityStateWins` | src/index.tsx:111-119 | an explicit activity state is never replaced: the screen is hidden iff it is exactly the number 0 |
| `NativeScreen.LegacyActiveMapping` | src/index.tsx:111-113 | without an activity state, `active` becomes 2 unless it is 0, and the screen is hidden iff `active` is 0 |
| `NativeScreen.NoActivityShows` | src/index.tsx:111-119 | with neither prop, the screen shows with `display` `'flex'` and is not asked to freeze |
| `NativeScreen.DisabledIsPlainView` | src/index.tsx:102-108 | a disabled screen is a plain view of the remaining props; `active`, `activityState`, `style` and `enabled` are dropped |
| `NativeScreen.DefaultFollowsScreensFlag` | src/index.tsx:106 | with `enabled` absent or `undefined` the screen is managed iff the screens flag is on: initially yes, after `enableScreens(b)` iff `b` |
| `NativeScreen.InactiveScreenFreezesOneTickLater` | src/index.tsx:74-80 | with freezing on, an inactive enabled screen gets a `DelayedFreeze` that is unfrozen on its first render and frozen after one tick |

## Left out

- React rendering, hooks and the `Freeze` component of react-freeze: foreign libraries. Only the decision each render makes is modelled.
- `setImmediate` timing: event-loop scheduling. Callbacks are a first-in first-out queue run by an explicit `Tick` step. React re-rendering after a state change is just another render event.
- `console.warn`: a side effect, modelled as the boolean `warned`.
- Reading `react-native/package.json`: I/O. The version string is a parameter.
- The alias and pass-through exports (src/index.tsx:130-175), including `Screen`, `ScreenContext`, the header views, `SearchBar`, `FullWindowOverlay`, `ScreenStackHeaderBackButtonImage` and `shouldUseActivityState`. They hold no logic.
- Re-exports from `./types`, `./utils` and `./useTransitionProgress` (src/index.tsx:14-19). Those modules are not part of this model.
- The props `ScreenStack` forwards to its view. They pass through unchanged either way.
- `React.Children` flattening of nested arrays. Stack children are a flat sequence; a fragment is one child and gets one wrapper.
- JavaScript strings are UTF-16 code units, and Dafny characters are Unicode scalar values. Only ASCII digits, signs, `x` and the listed white space matter to `parseInt`, so this makes no difference to the result.
- JsParseInt.ParseInt: the result is an unbounded integer, not a double. Rounding a huge value never changes whether it equals 0 or is at least 64, which is all the version check asks.
- Non-boolean arguments to `enableScreens`/`enableFreeze`: the declared parameter types are boolean, so an argument is a present or absent boolean.

=== FILE: delayed_freeze.dfy ===
/** `DelayedFreeze` (src/index.tsx:57-72): a wrapper that freezes its
    children one render later than asked, so that the last render before a
    freeze still reaches the screen. It keeps a state flag `freezeState`;
    every render whose `freeze` prop differs from the flag schedules, with
    `setImmediate`, a callback that sets the flag to that prop value. The
    scheduled callbacks are modelled as a first-in first-out queue and their
    running as an explicit `Tick` step. */
module DelayedFreeze {
  import opened JsValues

  /** The flag and the callbacks scheduled but not yet run, each holding the
      `freeze` value it captured. */
  datatype Machine = Machine(freezeState: bool, pending: seq<bool>)

  /** A freshly mounted wrapper: `useState(false)`, nothing scheduled. */
  const Mount: Machine := Machine(false, [])

  /** What one render produces: the `freeze` passed on to the freezing
      component, and the machine afterwards. */
  datatype Rendered = Rendered(frozen: bool, next: Machine)

  /** One render with prop `freeze`. The children are frozen only when both
      the prop and the flag say so; a callback is queued exactly when the
      two disagree, and the flag itself does not change during a render. */
  function Render(m: Machine, freeze: bool): (r: Rendered)
    ensures r.frozen <==> freeze && m.freezeState
    ensures r.next.freezeState == m.freezeState
    ensures |r.next.pending| == |m.pending| + 1 <==> freeze != m.freezeState
    ensures freeze == m.freezeState ==> r.next.pending == m.pending
    ensures freeze != m.freezeState ==> r.next.pending == m.pending + [freeze]
  {
    var scheduled := if freeze != m.freezeState then [freeze] else [];
    Rendered(if freeze then m.freezeState else false, m.(pending := m.pending + scheduled))
  }

  /** The event loop runs the oldest scheduled callback, if any. */
  function Tick(m: Machine): (r: Machine)
    ensures |m.pending| == 0 ==> r == m
    ensures |m.pending| > 0 ==> r.freezeState == m.pending[0] && m.pending == [m.pending[0]] + r.pending
  {
    if |m.pending| == 0 then m else Machine(m.pending[0], m.pending[1..])
  }

  /** A machine with nothing scheduled, rendered with any `freeze`, reaches
      after one tick a state where the flag equals `freeze`, rendering again
      freezes exactly when `freeze` holds, and nothing more is scheduled. */
  lemma SettlesAfterOneTick(freezeState: bool, freeze: bool)
    ensures var m := Tick(Render(Machine(freezeState, []), freeze).next);
            m == Machine(freeze, []) && Render(m, freeze) == Rendered(freeze, m)
  {
  }

  /** Freezing a settled, unfrozen wrapper takes one tick: the render that
      asks for it still shows the children, the render after the tick
      freezes them. */
  lemma FreezeTakesOneTick()
    ensures Render(Mount, true).frozen == false
    ensures Render(Tick(Render(Mount, true).next), true).frozen == true
  {
  }

  /** Unfreezing takes effect on the render that asks for it, whatever the
      state. */
  lemma UnfreezeIsImmediate(m: Machine)
    ensures !Render(m, false).frozen
  {
  }

  /** One step of the wrapper's life: a render with a given `freeze` prop, or
      the event loop running a scheduled callback. */
  datatype Event = RenderWith(freeze: bool) | TickEvent

  /** The machine after a sequence of events from mount, and for every event
      what it rendered (`None` for a tick). */
  datatype Trace = Trace(machine: Machine, outputs: seq<Option<bool>>)

  function Replay(evs: seq<Event>): (t: Trace)
    ensures |t.outputs| == |evs|
    ensures forall i :: 0 <= i < |evs| ==> (t.outputs[i].Some? <==> evs[i].RenderWith?)
  {
    if |evs| == 0 then Trace(Mount, [])
    else
      var before := Replay(evs[..|evs| - 1]);
      match evs[|evs| - 1]
      case RenderWith(freeze) =>
        var r := Render(before.machine, freeze);
        Trace(r.next, before.outputs + [Some(r.frozen)])
      case TickEvent => Trace(Tick(before.machine), before.outputs + [None])
  }

  /** Outputs already produced never change as events are added. */
  lemma {:induction false} ReplayExtends(evs: seq<Event>, n: nat)
    requires n <= |evs|
    ensures Replay(evs[..n]).outputs == Replay(evs).outputs[..n]
    decreases |evs|
  {
    if n < |evs| {
      var init := evs[..|evs| - 1];
      ReplayExtends(init, n);
      assert init[..n] == evs[..n];
    } else {
      assert evs[..n] == evs;
    }
  }

  /** The output for event `i` is the render of the machine the first `i`
      events left behind. */
  lemma OutputOfPrefix(evs: seq<Event>, i: nat)
    requires i < |evs| && evs[i].RenderWith?
    ensures Replay(evs).outputs[i] == Some(Render(Replay(evs[..i]).machine, evs[i].freeze).frozen)
  {
    ReplayExtends(evs, i + 1);
    assert evs[..i + 1][..i] == evs[..i];
  }

  /** Some render among the events asked for a freeze. */
  ghost predicate Requested(evs: seq<Event>)
  {
    exists j :: 0 <= j < |evs| && evs[j] == RenderWith(true)
  }

  /** Some render asked for a freeze and a tick ran after it. */
  ghost predicate RequestedThenTicked(evs: seq<Event>)
  {
    exists j, k :: 0 <= j < k < |evs| && evs[j] == RenderWith(true) && evs[k] == TickEvent
  }

  /** The flag is set only by a tick running a callback that a freeze request
      queued; a queued `true` exists only after a freeze request. */
  lemma {:induction false} FlagNeedsRequestAndTick(evs: seq<Event>)
    ensures Replay(evs).machine.freezeState ==> RequestedThenTicked(evs)
    ensures true in Replay(evs).machine.pending ==> Requested(evs)
  {
    if |evs| > 0 {
      var n := |evs| - 1;
      var init := evs[..n];
      FlagNeedsRequestAndTick(init);
      var m := Replay(init).machine;
      if Requested(init) {
        var j :| 0 <= j < n && init[j] == RenderWith(true);
        assert evs[j] == RenderWith(true);
      }
      if RequestedThenTicked(init) {
        var j, k :| 0 <= j < k < n && init[j] == RenderWith(true) && init[k] == TickEvent;
        assert evs[j] == RenderWith(true) && evs[k] == TickEvent;
      }
      match evs[n]
      case RenderWith(freeze) =>
        if freeze && freeze != m.freezeState {
          assert evs[n] == RenderWith(true);
        }
      case TickEvent =>
        if |m.pending| > 0 {
          if m.pending[0] {
            assert true in m.pending;
            var j :| 0 <= j < n && init[j] == RenderWith(true);
            assert evs[j] == RenderWith(true) && evs[n] == TickEvent;
          }
          assert forall x :: x in m.pending[1..] ==> x in m.pending;
        }
    }
  }

  /** Whatever the order of renders and ticks, the children are frozen by a
      render only if that render asks for it, and only after an earlier
      render asked for a freeze and a tick ran after that request. */
  lemma FrozenOnlyAfterRequestAndTick(evs: seq<Event>)
    ensures forall i :: 0 <= i < |evs| && Replay(evs).outputs[i] == Some(true) ==>
              evs[i] == RenderWith(true)
    ensures forall i :: 0 <= i < |evs| && Replay(evs).outputs[i] == Some(true) ==>
              RequestedThenTicked(evs[..i])
  {
    forall i | 0 <= i < |evs| && Replay(evs).outputs[i] == Some(true)
      ensures evs[i] == RenderWith(true) && RequestedThenTicked(evs[..i])
    {
      OutputOfPrefix(evs, i);
      FlagNeedsRequestAndTick(evs[..i]);
    }
  }

  /** A callback queued under an earlier request can land after the request
      was withdrawn; when freezing is asked for again the children are then
      frozen on that very render, without the extra render the wrapper
      otherwise grants. */
  lemma StaleTickFreezesAtOnce()
    ensures Replay([RenderWith(true), RenderWith(false), TickEvent, RenderWith(true)]).outputs
            == [Some(false), Some(false), None, Some(true)]
  {
    var e1 := [RenderWith(true)];
    var e2 := e1 + [RenderWith(false)];
    var e3 := e2 + [TickEvent];
    var e4 := e3 + [RenderWith(true)];
    assert e1[..0] == [];
    assert Replay(e1) == Trace(Machine(false, [true]), [Some(false)]);
    assert e2[..1] == e1;
    assert Replay(e2) == Trace(Machine(false, [true]), [Some(false), Some(false)]);
    assert e3[..2] == e2;
    assert Replay(e3) == Trace(Machine(true, []), [Some(false), Some(false), None]);
    assert e4[..3] == e3;
    assert e4 == [RenderWith(true), RenderWith(false), TickEvent, RenderWith(true)];
  }

  /** Stale callbacks can also make the children flicker: while `freeze`
      stays true they are frozen on one render and shown again on the next,
      because a callback queued under a withdrawn request clears the flag
      between the two. */
  lemma StaleTickFlickers()
    ensures Replay([RenderWith(true), RenderWith(false), TickEvent, RenderWith(false),
                    RenderWith(true), TickEvent, RenderWith(true)]).outputs
            == [Some(false), Some(false), None, Some(false), Some(true), None, Some(false)]
  {
    var e1 := [RenderWith(true)];
    var e2 := e1 + [RenderWith(false)];
    var e3 := e2 + [TickEvent];
    var e4 := e3 + [RenderWith(false)];
    var e5 := e4 + [RenderWith(true)];
    var e6 := e5 + [TickEvent];
    var e7 := e6 + [RenderWith(true)];
    assert e1[..0] == [];
    assert Replay(e1) == Trace(Machine(false, [true]), [Some(false)]);
    assert e2[..1] == e1;
    assert Replay(e2) == Trace(Machine(false, [true]), [Some(false), Some(false)]);
    assert e3[..2] == e2;
    assert Replay(e3) == Trace(Machine(true, []), [Some(false), Some(false), None]);
    assert e4[..3] == e3;
    assert Replay(e4) == Trace(Machine(true, [false]), [Some(false), Some(false), None, Some(false)]);
    assert e5[..4] == e4;
    assert Replay(e5) == Trace(Machine(true, [false]),
                               [Some(false), Some(false), None, Some(false), Some(true)]);
    assert e6[..5] == e5;
    assert Replay(e6) == Trace(Machine(false, []),
                               [Some(false), Some(false), None, Some(false), Some(true), None]);
    assert e7[..6] == e6;
    assert e7 == [RenderWith(true), RenderWith(false), TickEvent, RenderWith(false),
                  RenderWith(true), TickEvent, RenderWith(true)];
  }
}

=== FILE: flags.dfy ===
/** The two module-level switches of the shim (src/index.tsx:21-50):
    whether screens are enabled (initially on) and whether inactive screens
    are frozen (initially off), with their setters and getters, and the
    host-version check the freeze setter runs before assigning. */
module FeatureFlags {
  import opened JsValues
  import opened StringSplit
  import opened JsParseInt

  /** The values of `ENABLE_SCREENS` and `ENABLE_FREEZE`. */
  datatype Flags = Flags(screens: bool, freeze: bool)

  /** The values the module starts with. */
  const Initial: Flags := Flags(screens := true, freeze := false)

  /** `screensEnabled()`: true until `enableScreens` turns it off. */
  function ScreensEnabled(f: Flags): (r: bool)
    ensures f == Initial ==> r
  {
    f.screens
  }

  /** `freezeEnabled()`: false until `enableFreeze` turns it on. */
  function FreezeEnabled(f: Flags): (r: bool)
    ensures f == Initial ==> !r
  {
    f.freeze
  }

  /** `enableScreens(shouldEnableScreens = true)`: `None` is a call without
      an argument. */
  function EnableScreens(f: Flags, shouldEnableScreens: Option<bool>): (r: Flags)
    ensures ScreensEnabled(r) == shouldEnableScreens.GetOr(true)
    ensures shouldEnableScreens.None? ==> ScreensEnabled(r)
    ensures FreezeEnabled(r) == FreezeEnabled(f)
  {
    f.(screens := shouldEnableScreens.GetOr(true))
  }

  /** `parseInt(version.split('.')[1])`: the piece after the first dot, or
      `undefined` (which `parseInt` reads as the string "undefined") when the
      version has no dot. Without a dot the minor is `NaN`; a numeric minor
      needs a dot in front of it. */
  function MinorVersion(version: string): (r: Parsed)
    ensures '.' !in version ==> r == NotANumber
    ensures r.Integer? ==> '.' in version
  {
    assert '.' !in version ==> Field(version, '.', 1).None? by {
      if '.' !in version {
        SplitWhole(version, '.');
      }
    }
    match Field(version, '.', 1)
    case Some(minor) => ParseInt(minor)
    case None => UndefinedIsNaN(); ParseInt("undefined")
  }

  /** The host versions the freeze library accepts: minor 0 (a build from
      the main branch reports 0.0.0) or minor 64 and later. `NaN` is neither. */
  function SupportsFreeze(minor: Parsed): (ok: bool)
    ensures minor.NotANumber? ==> !ok
    ensures minor.Integer? && minor.value < 0 ==> !ok
    ensures minor.Integer? && 0 < minor.value < 64 ==> !ok
    ensures minor == Integer(0) ==> ok
    ensures minor.Integer? && minor.value >= 64 ==> ok
  {
    minor == Integer(0) || (minor.Integer? && minor.value >= 64)
  }

  /** What a call to `enableFreeze` leaves behind: the new flags, and whether
      it printed the upgrade warning. */
  datatype FreezeCall = FreezeCall(flags: Flags, warned: bool)

  /** `enableFreeze(shouldEnableReactFreeze = true)` on a host whose
      react-native version string is `version`. The check only warns; the
      assignment happens whatever the version. */
  function EnableFreeze(f: Flags, shouldEnableReactFreeze: Option<bool>, version: string): (r: FreezeCall)
    ensures FreezeEnabled(r.flags) == shouldEnableReactFreeze.GetOr(true)
    ensures ScreensEnabled(r.flags) == ScreensEnabled(f)
    ensures !FreezeEnabled(r.flags) ==> !r.warned
    ensures MinorVersion(version) == Integer(0) ==> !r.warned
    ensures MinorVersion(version).Integer? && MinorVersion(version).value >= 64 ==> !r.warned
    ensures (MinorVersion(version).Integer? && MinorVersion(version).value != 0
             && MinorVersion(version).value < 64) ==> r.warned == FreezeEnabled(r.flags)
    ensures MinorVersion(version).NotANumber? ==> r.warned == FreezeEnabled(r.flags)
  {
    var enable := shouldEnableReactFreeze.GetOr(true);
    var warned := !SupportsFreeze(MinorVersion(version)) && enable;
    FreezeCall(f.(freeze := enable), warned)
  }

  /** The version of a release, `major.minor` followed by nothing or by
      `.patch…`, has its minor read exactly, zero padding included
      (`"0.063.0"` has minor 63). */
  lemma {:induction false} MinorOfRelease(major: string, pad: nat, minor: nat, rest: string)
    requires '.' !in major
    requires |rest| == 0 || rest[0] == '.'
    ensures MinorVersion(major + ['.'] + Zeros(pad) + Decimal(minor) + rest) == Integer(minor)
  {
    var d := Zeros(pad) + Decimal(minor);
    assert forall i :: 0 <= i < |d| ==> IsDigit(d[i], 10);
    assert '.' !in d;
    var v := major + ['.'] + Zeros(pad) + Decimal(minor) + rest;
    assert v == major + ['.'] + (d + rest);
    SplitPiece(major, d + rest, '.');
    if |rest| == 0 {
      assert d + rest == d;
      SplitWhole(d, '.');
    } else {
      assert d + rest == d + ['.'] + rest[1..];
      SplitPiece(d, rest[1..], '.');
    }
    assert Split(v, '.')[1] == d;
    ParsePaddedDecimal(pad, minor, []);
    assert d + [] == d;
  }

  /** On a release version the warning is given exactly when freezing is
      requested and the minor version is neither 0 nor at least 64. */
  lemma GateOnRelease(f: Flags, b: bool, major: string, pad: nat, minor: nat, rest: string)
    requires '.' !in major
    requires |rest| == 0 || rest[0] == '.'
    ensures EnableFreeze(f, Some(b), major + ['.'] + Zeros(pad) + Decimal(minor) + rest).warned
            <==> b && minor != 0 && minor < 64
  {
    MinorOfRelease(major, pad, minor, rest);
  }

  /** A version string without a dot has no minor part; `parseInt` then
      yields `NaN`, so requesting freeze always warns. */
  lemma GateWithoutMinor(f: Flags, b: bool, version: string)
    requires '.' !in version
    ensures EnableFreeze(f, Some(b), version).warned <==> b
  {
  }

  /** One call to the module's setters. */
  datatype Call =
    | CallEnableScreens(screensArg: Option<bool>)
    | CallEnableFreeze(freezeArg: Option<bool>, version: string)

  /** The flags after one setter call: each setter writes its own flag only. */
  function Perform(f: Flags, c: Call): (r: Flags)
    ensures c.CallEnableScreens? ==> ScreensEnabled(r) == c.screensArg.GetOr(true)
    ensures c.CallEnableScreens? ==> FreezeEnabled(r) == FreezeEnabled(f)
    ensures c.CallEnableFreeze? ==> FreezeEnabled(r) == c.freezeArg.GetOr(true)
    ensures c.CallEnableFreeze? ==> ScreensEnabled(r) == ScreensEnabled(f)
  {
    match c
    case CallEnableScreens(arg) => EnableScreens(f, arg)
    case CallEnableFreeze(arg, version) => EnableFreeze(f, arg, version).flags
  }

  /** The flags after a sequence of setter calls from the module's start. */
  function Apply(calls: seq<Call>): Flags
  {
    if |calls| == 0 then Initial
    else Perform(Apply(calls[..|calls| - 1]), calls[|calls| - 1])
  }

  /** The latest call of the `CallEnableScreens` kind is at index `i`. */
  ghost predicate LatestScreensCall(calls: seq<Call>, i: int)
  {
    0 <= i < |calls| && calls[i].CallEnableScreens?
    && forall j :: i < j < |calls| ==> !calls[j].CallEnableScreens?
  }

  /** The latest call of the `CallEnableFreeze` kind is at index `i`. */
  ghost predicate LatestFreezeCall(calls: seq<Call>, i: int)
  {
    0 <= i < |calls| && calls[i].CallEnableFreeze?
    && forall j :: i < j < |calls| ==> !calls[j].CallEnableFreeze?
  }

  /** When the last call is not an `enableScreens`, the latest one is also
      the latest among the calls before it. */
  lemma LatestScreensInPrefix(calls: seq<Call>, i: int)
    requires LatestScreensCall(calls, i)
    requires !calls[|calls| - 1].CallEnableScreens?
    ensures LatestScreensCall(calls[..|calls| - 1], i)
  {
  }

  /** When the last call is not an `enableFreeze`, the latest one is also the
      latest among the calls before it. */
  lemma LatestFreezeInPrefix(calls: seq<Call>, i: int)
    requires LatestFreezeCall(calls, i)
    requires !calls[|calls| - 1].CallEnableFreeze?
    ensures LatestFreezeCall(calls[..|calls| - 1], i)
  {
  }

  /** `screensEnabled()` reports the argument of the latest `enableScreens`
      call (true when it was called without one), or true if there was none;
      `enableFreeze` calls never change it. */
  lemma {:induction false} LatestScreensCallWins(calls: seq<Call>)
    ensures (forall i :: 0 <= i < |calls| ==> !calls[i].CallEnableScreens?)
            ==> ScreensEnabled(Apply(calls))
    ensures forall i :: LatestScreensCall(calls, i) ==>
              ScreensEnabled(Apply(calls)) == calls[i].screensArg.GetOr(true)
  {
    if |calls| > 0 {
      var n := |calls| - 1;
      var init := calls[..n];
      LatestScreensCallWins(init);
      assert forall i :: 0 <= i < n ==> init[i] == calls[i];
      var before := Apply(init);
      assert Apply(calls) == Perform(before, calls[n]);
      if calls[n].CallEnableScreens? {
        forall i | LatestScreensCall(calls, i)
          ensures i == n
        {
        }
      } else {
        assert ScreensEnabled(Apply(calls)) == ScreensEnabled(before);
        forall i | LatestScreensCall(calls, i)
          ensures LatestScreensCall(init, i)
        {
          LatestScreensInPrefix(calls, i);
        }
      }
    }
  }

  /** `freezeEnabled()` reports the argument of the latest `enableFreeze`
      call (true when it was called without one), or false if there was
      none, whatever versions the calls saw. */
  lemma {:induction false} LatestFreezeCallWins(calls: seq<Call>)
    ensures (forall i :: 0 <= i < |calls| ==> !calls[i].CallEnableFreeze?)
            ==> !FreezeEnabled(Apply(calls))
    ensures forall i :: LatestFreezeCall(calls, i) ==>
              FreezeEnabled(Apply(calls)) == calls[i].freezeArg.GetOr(true)
  {
    if |calls| > 0 {
      var n := |calls| - 1;
      var init := calls[..n];
      LatestFreezeCallWins(init);
      assert forall i :: 0 <= i < n ==> init[i] == calls[i];
      var before := Apply(init);
      assert Apply(calls) == Perform(before, calls[n]);
      if calls[n].CallEnableFreeze? {
        forall i | LatestFreezeCall(calls, i)
          ensures i == n
        {
        }
      } else {
        assert FreezeEnabled(Apply(calls)) == FreezeEnabled(before);
        forall i | LatestFreezeCall(calls, i)
          ensures LatestFreezeCall(init, i)
        {
          LatestFreezeInPrefix(calls, i);
        }
      }
    }
  }
}

=== FILE: js_values.dfy ===
/** Values of the host language as the shim's decision rules observe them:
    optional arguments, prop values with their truthiness and strict
    comparison against the number literal 0, and prop bags. */
module JsValues {

  /** An argument or prop that may be absent (`undefined`). */
  datatype Option<+T> = None | Some(value: T) {

    /** The value, or the parameter default when the argument was omitted. */
    function GetOr(default: T): (r: T)
      ensures Some? ==> r == value
      ensures None? ==> r == default
    {
      match this
      case Some(v) => v
      case None => default
    }
  }

  /** A prop value. `Num` carries every finite number (including `-0`, which
      compares equal to `0`); `Obj` stands for any object, array or function,
      identified only by an opaque id. */
  datatype JsValue =
    | Undefined
    | Null
    | Bool(b: bool)
    | Num(x: real)
    | NaN
    | Str(s: string)
    | Obj(id: nat)

  /** Truthiness, as used by `if (enabled)`. */
  predicate Truthy(v: JsValue)
  {
    match v
    case Undefined => false
    case Null => false
    case Bool(b) => b
    case Num(x) => x != 0.0
    case NaN => false
    case Str(s) => s != ""
    case Obj(_) => true
  }

  /** `v === 0`: only a number equal to zero; `NaN`, `"0"` and `false` are not. */
  predicate IsZero(v: JsValue)
  {
    v.Num? && v.x == 0.0
  }

  /** A bag of props. A key that is absent and a key bound to `undefined`
      read the same. */
  type Props = map<string, JsValue>

  /** Reading a prop: `props.key`. */
  function Get(props: Props, key: string): (v: JsValue)
    ensures key !in props ==> v == Undefined
    ensures key in props ==> v == props[key]
  {
    if key in props then props[key] else Undefined
  }

  /** What an object-rest pattern `{ a, b, ...rest } = props` leaves in `rest`. */
  function Without(props: Props, keys: set<string>): (rest: Props)
    ensures rest.Keys == props.Keys - keys
    ensures forall k :: k in rest ==> rest[k] == props[k]
  {
    map k | k in props && k !in keys :: props[k]
  }
}

=== FILE: native_screen.dfy ===
/** `NativeScreen.render` and `MaybeFreeze` (src/index.tsx:74-128): an
    enabled screen derives its activity state, hides itself and asks to be
    frozen when that state is 0, and otherwise shows itself; a disabled
    screen is a plain view of the props it does not consume. */
module NativeScreen {
  import opened JsValues
  import opened FeatureFlags
  import DelayedFreeze

  /** The props the screen consumes itself; everything else is passed on. */
  const OwnProps: set<string> := {"active", "activityState", "style", "enabled"}

  /** A prop of the rendered view: one of the caller's props passed through,
      the computed `hidden` flag, or the style list `[style, { display }]`. */
  datatype ViewProp =
    | Forwarded(v: JsValue)
    | HiddenFlag(hidden: bool)
    | StyleList(base: JsValue, display: string)

  type ViewProps = map<string, ViewProp>

  /** What `MaybeFreeze` wraps the view in: nothing (a fragment) or a
      `DelayedFreeze` with the given request. */
  datatype Wrapper = Fragment | Delayed(freeze: bool)

  /** The rendered screen: a bare view, or a view inside a `MaybeFreeze`. */
  datatype ScreenView = PlainView(props: ViewProps) | Managed(wrapper: Wrapper, props: ViewProps)

  /** `MaybeFreeze`: a `DelayedFreeze` only while freezing is enabled. */
  function MaybeFreeze(freezeEnabled: bool, freeze: bool): (w: Wrapper)
    ensures w.Delayed? <==> freezeEnabled
    ensures w.Delayed? ==> w.freeze == freeze
  {
    if freezeEnabled then Delayed(freeze) else Fragment
  }

  /** Through `MaybeFreeze`, a freshly mounted screen's children freeze, one
      render and one tick after the request, exactly when freezing is enabled
      and asked for; without freezing there is no wrapper to freeze them. */
  lemma MaybeFreezeSettles(freezeEnabled: bool, freeze: bool)
    ensures var w := MaybeFreeze(freezeEnabled, freeze);
            && (w.Delayed? ==> !DelayedFreeze.Render(DelayedFreeze.Mount, w.freeze).frozen)
            && ((w.Delayed? &&
                 var first := DelayedFreeze.Render(DelayedFreeze.Mount, w.freeze);
                 DelayedFreeze.Render(DelayedFreeze.Tick(first.next), w.freeze).frozen)
                <==> freezeEnabled && freeze)
  {
    DelayedFreeze.SettlesAfterOneTick(false, freeze);
  }

  /** `enabled = ENABLE_SCREENS`: the default applies only when the prop is
      undefined; any other value is judged by its truthiness. */
  function IsEnabled(props: Props, screensFlag: bool): (r: bool)
    ensures Get(props, "enabled") == Undefined ==> r == screensFlag
    ensures Get(props, "enabled") == Bool(true) ==> r
    ensures Get(props, "enabled") in {Bool(false), Null, NaN, Num(0.0), Str("")} ==> !r
    ensures Get(props, "enabled").Obj? ==> r
    ensures Get(props, "enabled").Num? && Get(props, "enabled").x != 0.0 ==> r
    ensures Get(props, "enabled").Str? && Get(props, "enabled").s != "" ==> r
  {
    var e := Get(props, "enabled");
    if e == Undefined then screensFlag else Truthy(e)
  }

  /** The activity state an enabled screen works with: the prop itself, or,
      when only the legacy `active` is given, 2 for an `active` other than 0
      and 0 for an `active` of 0. */
  function ActivityState(props: Props): (s: JsValue)
    ensures Get(props, "activityState") != Undefined ==> s == Get(props, "activityState")
    ensures s == Undefined <==> Get(props, "activityState") == Undefined && Get(props, "active") == Undefined
  {
    var active := Get(props, "active");
    var given := Get(props, "activityState");
    if active != Undefined && given == Undefined then
      (if !IsZero(active) then Num(2.0) else Num(0.0))
    else given
  }

  /** The caller's props as view props. */
  function Forward(rest: Props): (v: ViewProps)
    ensures v.Keys == rest.Keys
    ensures forall k :: k in rest ==> v[k] == Forwarded(rest[k])
  {
    map k | k in rest :: Forwarded(rest[k])
  }

  /** `NativeScreen.render` with the module flags `flags`. In the enabled
      case `hidden` and `style` are written before the spread of the
      remaining props, so a `hidden` prop of the caller's overrides the
      computed one; `style` cannot, since the screen consumes it. */
  function RenderScreen(props: Props, flags: Flags): (r: ScreenView)
    ensures r.Managed? <==> IsEnabled(props, ScreensEnabled(flags))
    ensures r.PlainView? ==> r.props.Keys == props.Keys - OwnProps
    ensures r.Managed? ==> r.props.Keys == (props.Keys - OwnProps) + {"hidden", "style"}
    ensures forall k :: k in props && k !in OwnProps && (r.PlainView? || k != "hidden") ==>
              r.props[k] == Forwarded(props[k])
    ensures r.Managed? ==> r.props["style"].StyleList? && r.props["style"].base == Get(props, "style")
    ensures r.Managed? ==> (r.wrapper.Delayed? <==> FreezeEnabled(flags))
  {
    var rest := Without(props, OwnProps);
    if IsEnabled(props, ScreensEnabled(flags)) then
      var inactive := IsZero(ActivityState(props));
      var own := map["hidden" := HiddenFlag(inactive),
                     "style" := StyleList(Get(props, "style"), if !inactive then "flex" else "none")];
      Managed(MaybeFreeze(FreezeEnabled(flags), inactive), own + Forward(rest))
    else
      PlainView(Forward(rest))
  }

  /** For an enabled screen the three outputs agree: `display` is `'none'`,
      the computed `hidden` is set and (with freezing enabled) a freeze is
      requested all exactly when the activity state is 0; in every other case,
      an undefined activity state included, `display` is `'flex'`. */
  lemma InactiveIffHidden(props: Props, flags: Flags)
    requires IsEnabled(props, ScreensEnabled(flags))
    ensures var r := RenderScreen(props, flags);
            var inactive := IsZero(ActivityState(props));
            && r.props["style"].display == (if inactive then "none" else "flex")
            && ("hidden" !in props ==> r.props["hidden"] == HiddenFlag(inactive))
            && (FreezeEnabled(flags) ==> r.wrapper == Delayed(inactive))
            && (!FreezeEnabled(flags) ==> r.wrapper == Fragment)
  {
  }

  /** The caller's own `hidden` prop, when given, wins over the computed one. */
  lemma HiddenPropOverrides(props: Props, flags: Flags)
    requires IsEnabled(props, ScreensEnabled(flags))
    requires "hidden" in props
    ensures RenderScreen(props, flags).props["hidden"] == Forwarded(props["hidden"])
  {
  }

  /** An explicitly given activity state is never replaced by the one derived
      from `active`: the screen is hidden iff that state is exactly the
      number 0. */
  lemma GivenActivityStateWins(props: Props, flags: Flags)
    requires IsEnabled(props, ScreensEnabled(flags))
    requires Get(props, "activityState") != Undefined
    ensures RenderScreen(props, flags).props["style"].display == "none"
            <==> IsZero(Get(props, "activityState"))
  {
  }

  /** The legacy `active` prop, used only when no activity state is given:
      `active` of 0 hides the screen and any other value shows it (it becomes
      activity state 2). */
  lemma LegacyActiveMapping(props: Props, flags: Flags)
    requires IsEnabled(props, ScreensEnabled(flags))
    requires Get(props, "activityState") == Undefined && Get(props, "active") != Undefined
    ensures ActivityState(props) == (if IsZero(Get(props, "active")) then Num(0.0) else Num(2.0))
    ensures RenderScreen(props, flags).props["style"].display == "none"
            <==> IsZero(Get(props, "active"))
  {
  }

  /** With neither prop given the activity state stays undefined and the
      screen is shown, not hidden and not frozen. */
  lemma NoActivityShows(props: Props, flags: Flags)
    requires IsEnabled(props, ScreensEnabled(flags))
    requires Get(props, "activityState") == Undefined && Get(props, "active") == Undefined
    ensures var r := RenderScreen(props, flags);
            r.props["style"].display == "flex" && r.wrapper != Delayed(true)
  {
  }

  /** A disabled screen forwards exactly the props it does not consume:
      `active`, `activityState`, `style` and `enabled` are dropped and
      nothing is added. */
  lemma DisabledIsPlainView(props: Props, flags: Flags)
    requires !IsEnabled(props, ScreensEnabled(flags))
    ensures RenderScreen(props, flags) == PlainView(Forward(Without(props, OwnProps)))
    ensures forall k :: k in OwnProps ==> k !in RenderScreen(props, flags).props
  {
  }

  /** With `enabled` absent or undefined the screen follows the module's
      screens flag, so after `enableScreens(false)` it is a plain view and after
      `enableScreens()` it is managed again. */
  lemma DefaultFollowsScreensFlag(props: Props, flags: Flags, arg: Option<bool>)
    requires Get(props, "enabled") == Undefined
    ensures RenderScreen(props, EnableScreens(flags, arg)).Managed? <==> arg.GetOr(true)
    ensures RenderScreen(props, Initial).Managed?
  {
  }

  /** With freezing enabled, an enabled screen whose activity state is 0 is
      not yet frozen on its first render and is frozen on the render after
      the wrapper's tick. */
  lemma InactiveScreenFreezesOneTickLater(props: Props, flags: Flags)
    requires IsEnabled(props, ScreensEnabled(flags)) && FreezeEnabled(flags)
    requires IsZero(ActivityState(props))
    ensures RenderScreen(props, flags).wrapper.Delayed?
    ensures var freeze := RenderScreen(props, flags).wrapper.freeze;
            var first := DelayedFreeze.Render(DelayedFreeze.Mount, freeze);
            !first.frozen && DelayedFreeze.Render(DelayedFreeze.Tick(first.next), freeze).frozen
  {
    DelayedFreeze.FreezeTakesOneTick();
  }
}

=== FILE: parse_int.dfy ===
/** The global `parseInt(string)` called without a radix, as section 19.2.5
    of ECMA-262 defines it: skip leading white space, read an optional sign,
    switch to base 16 after a `0x`/`0X` prefix, then read the longest prefix
    of digits of that base; no digit at all gives `NaN`. */
module JsParseInt {

  /** The result of `parseInt`: `NaN` or an integer. Integers are unbounded
      here; rounding of huge values never changes whether they are `0` or at
      least `64`, which is all the callers ask. */
  datatype Parsed = NotANumber | Integer(value: int)

  /** The WhiteSpace and LineTerminator code points of ECMA-262 (TAB, VT, FF,
      ZWNBSP, the Zs space separators, LF, CR, LS, PS). */
  predicate IsWhitespace(c: char)
  {
    || c == '\t' || c == '\n' || c == '\U{B}' || c == '\U{C}' || c == '\r'
    || c == ' ' || c == '\U{A0}' || c == '\U{1680}'
    || ('\U{2000}' <= c <= '\U{200A}')
    || c == '\U{2028}' || c == '\U{2029}' || c == '\U{202F}' || c == '\U{205F}'
    || c == '\U{3000}' || c == '\U{FEFF}'
  }

  /** The string with its leading white space removed. */
  function TrimStart(s: string): (r: string)
    ensures |r| <= |s| && r == s[|s| - |r|..]
    ensures forall i :: 0 <= i < |s| - |r| ==> IsWhitespace(s[i])
    ensures |r| == 0 || !IsWhitespace(r[0])
  {
    if |s| > 0 && IsWhitespace(s[0]) then TrimStart(s[1..]) else s
  }

  /** The bases `parseInt` can choose without an explicit radix. */
  type Radix = r: nat | r == 10 || r == 16 witness 10

  /** Value of `c` as a digit of any base up to 36, or -1. */
  function DigitValue(c: char): int
  {
    if '0' <= c <= '9' then c as int - '0' as int
    else if 'a' <= c <= 'z' then c as int - 'a' as int + 10
    else if 'A' <= c <= 'Z' then c as int - 'A' as int + 10
    else -1
  }

  predicate IsDigit(c: char, radix: Radix)
  {
    0 <= DigitValue(c) < radix
  }

  /** Length of the longest prefix of `s` made of digits of `radix`. */
  function DigitRun(s: string, radix: Radix): (n: nat)
    ensures n <= |s|
    ensures forall i :: 0 <= i < n ==> IsDigit(s[i], radix)
    ensures n == |s| || !IsDigit(s[n], radix)
  {
    if |s| > 0 && IsDigit(s[0], radix) then 1 + DigitRun(s[1..], radix) else 0
  }

  /** The number a string of digits denotes in `radix`, most significant first. */
  function Value(digits: string, radix: Radix): nat
    requires forall i :: 0 <= i < |digits| ==> IsDigit(digits[i], radix)
  {
    if |digits| == 0 then 0
    else
      var last := digits[|digits| - 1];
      assert IsDigit(last, radix);
      Value(digits[..|digits| - 1], radix) * radix + DigitValue(last)
  }

  /** The value of the longest run of `radix` digits at the front of `body`,
      or `NaN` when there is none. */
  function ReadDigits(body: string, radix: Radix): (r: Parsed)
    ensures r.NotANumber? <==> |body| == 0 || !IsDigit(body[0], radix)
    ensures r.Integer? ==> r.value >= 0
    ensures r.Integer? ==> r.value == Value(body[..DigitRun(body, radix)], radix)
  {
    var n := DigitRun(body, radix);
    if n == 0 then NotANumber else Integer(Value(body[..n], radix))
  }

  /** An unsigned numeral: base 16 after a `0x`/`0X` prefix, else base 10. */
  function ParseMagnitude(u: string): (r: Parsed)
    ensures r.Integer? ==> r.value >= 0
  {
    if |u| >= 2 && u[0] == '0' && (u[1] == 'x' || u[1] == 'X') then ReadDigits(u[2..], 16)
    else ReadDigits(u, 10)
  }

  function Negate(p: Parsed): Parsed
  {
    match p
    case NotANumber => NotANumber
    case Integer(v) => Integer(-v)
  }

  /** `parseInt(s)` with no radix. A string of nothing but white space is
      `NaN`, and the sign of a non-zero result is the sign written in front. */
  function ParseInt(s: string): (r: Parsed)
    ensures |TrimStart(s)| == 0 ==> r.NotANumber?
    ensures r.Integer? && r.value < 0 ==> TrimStart(s)[0] == '-'
    ensures r.Integer? && r.value > 0 ==> TrimStart(s)[0] != '-'
  {
    var t := TrimStart(s);
    if |t| > 0 && t[0] == '-' then Negate(ParseMagnitude(t[1..]))
    else if |t| > 0 && t[0] == '+' then ParseMagnitude(t[1..])
    else ParseMagnitude(t)
  }

  /** The decimal digit for `d`. */
  function DigitChar(d: nat): (c: char)
    requires d < 10
    ensures IsDigit(c, 10) && DigitValue(c) == d
  {
    ['0', '1', '2', '3', '4', '5', '6', '7', '8', '9'][d]
  }

  /** The shortest decimal rendering of `n`, as `String(n)` writes it. */
  function Decimal(n: nat): (s: string)
    ensures |s| >= 1
    ensures forall i :: 0 <= i < |s| ==> IsDigit(s[i], 10)
    ensures |s| == 1 <==> n < 10
    ensures s[0] == '0' <==> n == 0
  {
    if n < 10 then [DigitChar(n)] else Decimal(n / 10) + [DigitChar(n % 10)]
  }

  /** Reading back a decimal rendering gives the number. */
  lemma {:induction false} ValueOfDecimal(n: nat)
    ensures Value(Decimal(n), 10) == n
  {
    if n >= 10 {
      var s := Decimal(n);
      ValueOfDecimal(n / 10);
      assert s[..|s| - 1] == Decimal(n / 10);
    }
  }

  /** The digit run stops exactly where the digits stop. */
  lemma {:induction false} DigitRunOfPrefix(digits: string, rest: string, radix: Radix)
    requires forall i :: 0 <= i < |digits| ==> IsDigit(digits[i], radix)
    requires |rest| == 0 || !IsDigit(rest[0], radix)
    ensures DigitRun(digits + rest, radix) == |digits|
    decreases |digits|
  {
    if |digits| > 0 {
      assert (digits + rest)[1..] == digits[1..] + rest;
      DigitRunOfPrefix(digits[1..], rest, radix);
    } else {
      assert digits + rest == rest;
    }
  }

  /** Reading the digits of a decimal rendering gives the number back. */
  lemma ReadDecimal(n: nat, rest: string)
    requires |rest| == 0 || !IsDigit(rest[0], 10)
    ensures ReadDigits(Decimal(n) + rest, 10) == Integer(n)
  {
    DigitRunOfPrefix(Decimal(n), rest, 10);
    assert (Decimal(n) + rest)[..|Decimal(n)|] == Decimal(n);
    ValueOfDecimal(n);
  }

  /** An unsigned decimal rendering is never taken for a `0x` prefix, unless
      a lone `0` is followed by an `x`. */
  lemma MagnitudeOfDecimal(n: nat, rest: string)
    requires |rest| == 0 || !IsDigit(rest[0], 10)
    requires n == 0 && |rest| > 0 ==> rest[0] != 'x' && rest[0] != 'X'
    ensures ParseMagnitude(Decimal(n) + rest) == Integer(n)
  {
    var u := Decimal(n) + rest;
    if |u| >= 2 && u[0] == '0' {
      assert n == 0 && u[1] == rest[0];
    }
    ReadDecimal(n, rest);
  }

  /** With nothing to skip and no sign, `parseInt` reads a bare numeral. */
  lemma ParseUnsigned(s: string)
    requires |s| == 0 || (!IsWhitespace(s[0]) && s[0] != '-' && s[0] != '+')
    ensures ParseInt(s) == ParseMagnitude(s)
  {
    assert TrimStart(s) == s;
  }

  /** `parseInt` reads back what `String(n)` writes, and stops at the first
      character that cannot continue the number: `parseInt("64")` is 64 and
      so is `parseInt("64-rc.1")`. Only after a lone `0` does an `x` matter,
      since `"0x…"` switches to base 16. */
  lemma ParseDecimal(n: nat, rest: string)
    requires |rest| == 0 || !IsDigit(rest[0], 10)
    requires n == 0 && |rest| > 0 ==> rest[0] != 'x' && rest[0] != 'X'
    ensures ParseInt(Decimal(n) + rest) == Integer(n)
  {
    ParsePaddedDecimal(0, n, rest);
    assert Zeros(0) == [];
    assert Zeros(0) + Decimal(n) == Decimal(n);
  }

  /** A run of `k` zero digits. */
  function Zeros(k: nat): (z: string)
    ensures |z| == k
    ensures forall i :: 0 <= i < k ==> z[i] == '0'
  {
    seq(k, _ => '0')
  }

  /** A zero digit in front does not change the value of a numeral. */
  lemma {:induction false} ValueLeadingZero(digits: string, radix: Radix)
    requires forall i :: 0 <= i < |digits| ==> IsDigit(digits[i], radix)
    ensures Value(['0'] + digits, radix) == Value(digits, radix)
    decreases |digits|
  {
    var z := ['0'] + digits;
    if |digits| == 0 {
      assert z[..0] == [];
    } else {
      var init := digits[..|digits| - 1];
      ValueLeadingZero(init, radix);
      assert z[..|z| - 1] == ['0'] + init;
      assert z[|z| - 1] == digits[|digits| - 1];
    }
  }

  /** Any number of leading zeros leaves the value unchanged. */
  lemma {:induction false} ValueLeadingZeros(k: nat, digits: string, radix: Radix)
    requires forall i :: 0 <= i < |digits| ==> IsDigit(digits[i], radix)
    ensures forall i :: 0 <= i < |Zeros(k) + digits| ==> IsDigit((Zeros(k) + digits)[i], radix)
    ensures Value(Zeros(k) + digits, radix) == Value(digits, radix)
  {
    if k > 0 {
      ValueLeadingZeros(k - 1, digits, radix);
      assert Zeros(k) + digits == ['0'] + (Zeros(k - 1) + digits);
      ValueLeadingZero(Zeros(k - 1) + digits, radix);
    } else {
      assert Zeros(k) + digits == digits;
    }
  }

  /** Reading the digits of a zero-padded decimal rendering gives the number. */
  lemma ReadPaddedDecimal(k: nat, n: nat, rest: string)
    requires |rest| == 0 || !IsDigit(rest[0], 10)
    ensures ReadDigits(Zeros(k) + Decimal(n) + rest, 10) == Integer(n)
  {
    var d := Zeros(k) + Decimal(n);
    ValueLeadingZeros(k, Decimal(n), 10);
    ValueOfDecimal(n);
    DigitRunOfPrefix(d, rest, 10);
    assert (d + rest)[..|d|] == d;
  }

  /** A padded numeral is taken for a `0x` prefix only when it is a lone `0`
      followed by an `x`. */
  lemma MagnitudeOfPaddedDecimal(k: nat, n: nat, rest: string)
    requires |rest| == 0 || !IsDigit(rest[0], 10)
    requires k == 0 && n == 0 && |rest| > 0 ==> rest[0] != 'x' && rest[0] != 'X'
    ensures ParseMagnitude(Zeros(k) + Decimal(n) + rest) == Integer(n)
  {
    var s := Zeros(k) + Decimal(n) + rest;
    if |s| >= 2 && s[0] == '0' {
      if k >= 2 {
        assert s[1] == '0';
      } else if k == 1 {
        assert s[1] == Decimal(n)[0];
      } else {
        assert n == 0 && s[1] == rest[0];
      }
    }
    ReadPaddedDecimal(k, n, rest);
  }

  /** Zero-padded numerals read as the number they pad: `parseInt("063")` is
      63 and `parseInt("007x")` is 7. Only a lone `0` followed by `x` or `X`
      switches to base 16. */
  lemma ParsePaddedDecimal(k: nat, n: nat, rest: string)
    requires |rest| == 0 || !IsDigit(rest[0], 10)
    requires k == 0 && n == 0 && |rest| > 0 ==> rest[0] != 'x' && rest[0] != 'X'
    ensures ParseInt(Zeros(k) + Decimal(n) + rest) == Integer(n)
  {
    var s := Zeros(k) + Decimal(n) + rest;
    if k > 0 {
      assert s[0] == '0';
    } else {
      assert s[0] == Decimal(n)[0];
    }
    assert IsDigit(s[0], 10);
    ParseUnsigned(s);
    MagnitudeOfPaddedDecimal(k, n, rest);
  }

  /** A minus sign in front negates: `parseInt("-7")` is -7. */
  lemma ParseNegativeDecimal(n: nat)
    ensures ParseInt(['-'] + Decimal(n)) == Integer(-(n as int))
  {
    var d := Decimal(n);
    var s := ['-'] + d;
    assert s[0] == '-' && !IsWhitespace(s[0]);
    assert TrimStart(s) == s;
    assert s[1..] == d + [];
    MagnitudeOfDecimal(n, []);
    assert ParseMagnitude(s[1..]) == Integer(n);
  }

  /** A plus sign in front is skipped: `parseInt("+64")` is 64. */
  lemma ParsePositiveDecimal(n: nat)
    ensures ParseInt(['+'] + Decimal(n)) == Integer(n)
  {
    var d := Decimal(n);
    var s := ['+'] + d;
    assert s[0] == '+' && !IsWhitespace(s[0]);
    assert TrimStart(s) == s;
    assert s[1..] == d + [];
    MagnitudeOfDecimal(n, []);
    assert ParseMagnitude(s[1..]) == Integer(n);
  }

  /** The hexadecimal digits `40` denote 64. */
  lemma ReadHexForty()
    ensures ReadDigits("40", 16) == Integer(64)
  {
    var digits := "40";
    assert DigitRun(digits, 16) == 2;
    assert digits[..2] == digits;
    assert digits[..1] == "4";
    assert Value(digits[..1], 16) == 4;
  }

  /** A `0x` prefix switches to base 16: `parseInt("0x40")` is 64, where
      base 10 would stop at the `x` and give 0. */
  lemma HexPrefixSwitchesBase()
    ensures ParseInt("0x40") == Integer(64)
    ensures ParseInt("0X40") == Integer(64)
  {
    ReadHexForty();
    ParseUnsigned("0x40");
    ParseUnsigned("0X40");
    assert "0x40"[2..] == "40";
    assert "0X40"[2..] == "40";
  }

  /** Leading white space never changes the result. */
  lemma LeadingWhitespaceIgnored(c: char, s: string)
    requires IsWhitespace(c)
    ensures ParseInt([c] + s) == ParseInt(s)
  {
    assert ([c] + s)[1..] == s;
  }

  /** A string whose first character is not a digit, a sign or white space
      is `NaN`. */
  lemma NoLeadingDigitIsNaN(s: string)
    requires |s| == 0 || (!IsWhitespace(s[0]) && !IsDigit(s[0], 10) && s[0] != '-' && s[0] != '+')
    ensures ParseInt(s) == NotANumber
  {
    ParseUnsigned(s);
  }

  /** `parseInt(undefined)` converts its argument to the string
      `"undefined"` first, which has no digits. */
  lemma UndefinedIsNaN()
    ensures ParseInt("undefined") == NotANumber
  {
    NoLeadingDigitIsNaN("undefined");
  }
}

=== FILE: screen_stack.dfy ===
/** `ScreenStack.render` (src/index.tsx:82-98): with freezing enabled every
    child of the stack is wrapped in a `DelayedFreeze` that freezes all
    screens but the top one; otherwise the children are passed through. */
module ScreenStack {
  import DelayedFreeze

  /** A child wrapped as `<DelayedFreeze freeze={freeze}>{child}</DelayedFreeze>`. */
  datatype Wrapped<C> = Wrapped(freeze: bool, child: C)

  /** The children the stack's view receives. */
  datatype StackView<C> = Plain(children: seq<C>) | Freezing(items: seq<Wrapped<C>>)

  /** The render of a stack holding `children` (last = top of the stack). */
  function RenderStack<C>(children: seq<C>, freezeEnabled: bool): (r: StackView<C>)
    ensures r.Plain? <==> !freezeEnabled
    ensures r.Plain? ==> r.children == children
    ensures r.Freezing? ==> |r.items| == |children|
    ensures r.Freezing? ==> forall i :: 0 <= i < |children| ==> r.items[i].child == children[i]
    ensures r.Freezing? ==> forall i :: 0 <= i < |children| ==> (r.items[i].freeze <==> i < |children| - 1)
  {
    if freezeEnabled then
      var size := |children|;
      Freezing(seq(size, i requires 0 <= i < size => Wrapped(size - i > 1, children[i])))
    else Plain(children)
  }

  /** The positions whose wrapper does not ask for a freeze. */
  function LiveIndices<C>(items: seq<Wrapped<C>>): set<nat>
  {
    set i: nat | i < |items| && !items[i].freeze
  }

  /** Only the top screen stays live: a non-empty stack has exactly one
      unfrozen child, the last; an empty one has none. */
  lemma OnlyTopIsLive<C>(children: seq<C>)
    ensures |children| > 0 ==> LiveIndices(RenderStack(children, true).items) == {|children| - 1}
    ensures |children| == 0 ==> LiveIndices(RenderStack(children, true).items) == {}
  {
    var items := RenderStack(children, true).items;
    if |children| > 0 {
      assert (|children| - 1) in LiveIndices(items);
    }
  }

  /** Pushing a screen freezes the screen that was on top and leaves the
      wrappers below it as they were. */
  lemma PushFreezesPreviousTop<C>(children: seq<C>, c: C)
    requires |children| > 0
    ensures var before := RenderStack(children, true).items;
            var after := RenderStack(children + [c], true).items;
            && !before[|children| - 1].freeze
            && after[|children| - 1].freeze
            && !after[|children|].freeze
            && forall i :: 0 <= i < |children| - 1 ==> after[i] == before[i]
  {
  }

  /** Popping the top screen unfreezes the one below it. */
  lemma PopUnfreezesNewTop<C>(children: seq<C>)
    requires |children| >= 2
    ensures var before := RenderStack(children, true).items;
            var after := RenderStack(children[..|children| - 1], true).items;
            before[|children| - 2].freeze && !after[|children| - 2].freeze
  {
  }

  /** Right after the stack is shown, the freshly mounted wrappers freeze no
      child at all; once each wrapper's scheduled tick has run, the next
      render freezes exactly the children under the top. */
  lemma StackFreezesOneTickLater<C>(children: seq<C>)
    ensures forall i :: 0 <= i < |children| ==>
              !DelayedFreeze.Render(DelayedFreeze.Mount, RenderStack(children, true).items[i].freeze).frozen
    ensures forall i :: 0 <= i < |children| ==>
              var freeze := RenderStack(children, true).items[i].freeze;
              var m := DelayedFreeze.Tick(DelayedFreeze.Render(DelayedFreeze.Mount, freeze).next);
              DelayedFreeze.Render(m, freeze).frozen <==> i < |children| - 1
  {
    forall i | 0 <= i < |children|
      ensures var freeze := RenderStack(children, true).items[i].freeze;
              var m := DelayedFreeze.Tick(DelayedFreeze.Render(DelayedFreeze.Mount, freeze).next);
              DelayedFreeze.Render(m, freeze).frozen <==> i < |children| - 1
    {
      var freeze := RenderStack(children, true).items[i].freeze;
      DelayedFreeze.SettlesAfterOneTick(false, freeze);
    }
  }
}

=== FILE: string_split.dfy ===
/** `String.prototype.split` with a one-character separator, as the version
    gate uses it (`version.split('.')`), and the `join` that undoes it. */
module StringSplit {
  import opened JsValues

  /** Number of occurrences of `c` in `s`. */
  function Occurrences(s: string, c: char): nat
  {
    if |s| == 0 then 0
    else (if s[0] == c then 1 else 0) + Occurrences(s[1..], c)
  }

  /** The pieces of `s` between separators: never empty (`"".split('.')` is
      `[""]`), one more piece than there are separators, and no piece holds
      the separator. */
  function Split(s: string, sep: char): (parts: seq<string>)
    ensures |parts| == Occurrences(s, sep) + 1
    ensures forall i :: 0 <= i < |parts| ==> sep !in parts[i]
    decreases |s|
  {
    if |s| == 0 then [""]
    else
      var tail := Split(s[1..], sep);
      if s[0] == sep then [""] + tail
      else [[s[0]] + tail[0]] + tail[1..]
  }

  /** The pieces glued back together with the separator between them. */
  function Join(parts: seq<string>, sep: char): string
  {
    if |parts| == 0 then ""
    else if |parts| == 1 then parts[0]
    else parts[0] + [sep] + Join(parts[1..], sep)
  }

  /** `arr[i]` of the split: the piece, or `undefined` past the end. */
  function Field(s: string, sep: char, i: nat): (r: Option<string>)
    ensures r.Some? <==> i <= Occurrences(s, sep)
    ensures r.Some? ==> sep !in r.value
  {
    var parts := Split(s, sep);
    if i < |parts| then Some(parts[i]) else None
  }

  /** Gluing a non-empty list to the front of a non-empty join. */
  lemma {:induction false} JoinCons(p: string, parts: seq<string>, sep: char)
    requires |parts| >= 1
    ensures Join([p] + parts, sep) == p + [sep] + Join(parts, sep)
  {
    assert ([p] + parts)[1..] == parts;
  }

  /** Splitting and joining again gives back the original string. */
  lemma {:induction false} JoinSplit(s: string, sep: char)
    ensures Join(Split(s, sep), sep) == s
    decreases |s|
  {
    if |s| == 0 {
    } else {
      var tail := Split(s[1..], sep);
      JoinSplit(s[1..], sep);
      if s[0] == sep {
        JoinCons("", tail, sep);
        assert s == [sep] + s[1..];
      } else {
        var head := [s[0]] + tail[0];
        if |tail| == 1 {
          assert [head] + tail[1..] == [head];
          assert s == [s[0]] + s[1..];
        } else {
          JoinCons(head, tail[1..], sep);
          assert tail == [tail[0]] + tail[1..];
          JoinCons(tail[0], tail[1..], sep);
          assert s == [s[0]] + s[1..];
        }
      }
    }
  }

  /** A piece free of separators followed by a separator splits off as the
      first piece. */
  lemma {:induction false} SplitPiece(p: string, rest: string, sep: char)
    requires sep !in p
    ensures Split(p + [sep] + rest, sep) == [p] + Split(rest, sep)
    decreases |p|
  {
    var s := p + [sep] + rest;
    if |p| == 0 {
      assert s[1..] == rest;
    } else {
      assert s[1..] == p[1..] + [sep] + rest;
      SplitPiece(p[1..], rest, sep);
      assert [p[0]] + p[1..] == p;
    }
  }

  /** A separator-free string is a single piece. */
  lemma {:induction false} SplitWhole(p: string, sep: char)
    requires sep !in p
    ensures Split(p, sep) == [p]
    decreases |p|
  {
    if |p| > 0 {
      SplitWhole(p[1..], sep);
      assert [p[0]] + p[1..] == p;
    }
  }

  /** Joining separator-free pieces and splitting again gives back the pieces. */
  lemma {:induction false} SplitJoin(parts: seq<string>, sep: char)
    requires |parts| >= 1
    requires forall i :: 0 <= i < |parts| ==> sep !in parts[i]
    ensures Split(Join(parts, sep), sep) == parts
    decreases |parts|
  {
    if |parts| == 1 {
      SplitWhole(parts[0], sep);
    } else {
      SplitJoin(parts[1..], sep);
      SplitPiece(parts[0], Join(parts[1..], sep), sep);
      assert parts == [parts[0]] + parts[1..];
    }
  }
}
